=== FILE: README.md ===
# Tracing plugin and connection registry for gorm — a Dafny model

This project models the sequential core of `entry.go`. That file holds an OpenTelemetry tracing plugin for the gorm ORM and a process-wide, named connection registry. The model covers four pieces:

- **Error accumulator (`myError`).** An ordered list of `stage=<name>:<msg>` entries. It ignores nil errors. It becomes no error when empty, and otherwise an error whose text joins the entries with `;`.
- **Option builder (`defaultOption`, `WithLogResult`, `WithTracer`, `WithSqlParameters`, `New`).** A default record with option updates folded over it from left to right. A nil tracer is ignored.
- **Hook registration (`Initialize`) and the stage vocabulary.** There are six operation kinds and two phases, which give twelve stage names of the form `otel:<before|after>_<kind>`. `Initialize` attempts all twelve registrations and reports every failure in registration order.
- **Per-call store and registry.** `injectBefore` writes exactly `start_time` and `span` into a statement's instance store when a context exists, and `extractAfter` only reads it. Both do nothing without a handle, a statement or a context. `Get` is a map state machine: a hit returns the cached handle, a successful miss caches the new handle under the name, and a failed miss caches nothing.

Modules: `Wrappers` (Option/Result), `Vocabulary` (kinds, phases, stages, key prefix), `ErrorAccumulator`, `PluginOptions`, `Plugin` (`New`, `Name`, `Initialize`, the hooks), `SpanHooks` (store effects of the hooks), `Registry` (`Get`, the as-written `Get`, runs of many calls).

Foreign behaviour becomes input parameters:
- what the driver's open returns (`Result<Conn, HostError>`);
- what the host returns for each of the twelve hook registrations (a sequence of twelve `Option<HostError>`);
- the current time and the span token the tracer hands out;
- the interpolated SQL text the dialect's `Explain` produces;
- the process-wide tracer provider.

Notes on the code:
- Hooks are registered kind by kind, each `before` directly followed by its `after` (entry.go:282-316).
- No exported option changes the operation names, so every plugin built by `New` names its spans after the kind.
- `defaultOption` leaves `errorTagHook` unset (nil).
- A failed open in `Get` panics rather than returning the error (see Findings).
- `entry.go` uses `time`, `log`, `util` and `oteltrace` without importing them. The model assumes the evident imports.

## Model

| member | source | states |
|---|---|---|
| Vocabulary.StageNameScheme | entry.go:155-174 | the contract of `StageName`: every stage constant is `otel:` + phase + `_` + kind, led by the plugin name |
| Vocabulary.AllStagesComplete | entry.go:282-316 | the registration table has twelve entries, covers every (phase, kind) pair and repeats none |
| Vocabulary.StageNameInjective | entry.go:161-174 | distinct stages have distinct registration names |
| Vocabulary.ParseStage | entry.go:155-174 | looking a name up among the stages yields a stage with that name, or none when no stage has it |
| Vocabulary.ParseStageName | entry.go:155-174 | looking up a stage's own name gives that stage back (round trip) |
| Vocabulary.KeyWithPrefix | entry.go:84-86 | a key is qualified as `gorm.otel` + `.` + key, with the key intact after the dot |
| Vocabulary.KeyPrefixRoundTrip | entry.go:70-86 | stripping the prefix undoes `keyWithPrefix`, and anything accepted by the strip is a prefixed key |
| ErrorAccumulator.Entry | entry.go:54 | an entry is `stage=`, the stage name, `:`, then the error message, at those positions |
| ErrorAccumulator.Add | entry.go:49-55 | a nil error leaves the list unchanged; a non-nil one appends exactly one entry at the end and keeps the earlier ones in order |
| ErrorAccumulator.ToError | entry.go:57-63 | the result is nil iff the list is empty, and is otherwise the accumulator with the same entries |
| ErrorAccumulator.ErrorText | entry.go:65-67 | the text of an empty accumulator is empty; otherwise, when no entry holds `;`, splitting the text at `;` gives back the entries |
| ErrorAccumulator.SplitJoin | entry.go:65-67 | splitting the error text at `;` gives back exactly the entries in insertion order, when no entry contains `;`, so there is no trailing or extra separator |
| ErrorAccumulator.AddExtendsText | entry.go:49-67 | adding a failure makes the text the new entry alone when the list was empty, and otherwise the old text + `;` + the new entry |
| ErrorAccumulator.EntryNoSeparator | entry.go:54 | stage names hold no `;`, so an entry is `;`-free exactly when its message is |
| PluginOptions.DefaultOption | entry.go:190-204 | defaults: result logging off, SQL parameters on, the process-wide tracer, no error-tag hook, op names create/update/query/delete/row/raw |
| PluginOptions.Apply | entry.go:206-226 | each option changes only its own field; a nil tracer changes nothing; a non-nil tracer or a boolean option sets its field to the given value |
| PluginOptions.ApplyAll | entry.go:321-326 | folding the options over a record never touches its error-tag hook or its op names |
| PluginOptions.ApplyIdempotent | entry.go:206-226 | applying an option twice equals applying it once |
| PluginOptions.ApplyAllConcat | entry.go:321-326 | applying a concatenation of option lists applies the first list and then the second |
| PluginOptions.ApplyAllLastWins | entry.go:321-326 | after applying options left to right, each field holds the value of the last option that sets it (the last non-nil tracer), or its starting value |
| Plugin.Name | entry.go:275-277 | the plugin's name followed by `:` begins every stage name |
| Plugin.New | entry.go:321-329 | the built plugin has the last-set logResult (default false), logSqlParameters (default true) and non-nil tracer (default process-wide), no error-tag hook, and default op names |
| Plugin.NewWithoutOptions | entry.go:190-204 | with no options the record is exactly the defaults |
| Plugin.NilTracerIgnored | entry.go:212-220 | appending `WithTracer(nil)` leaves the built record unchanged |
| Plugin.RegisterFirstReportsFailures | entry.go:280-316 | the contract of `RegisterFirst`: after any number of registration attempts the accumulator holds one entry per failing attempt, in attempt order, whatever the earlier attempts returned |
| Plugin.Initialize | entry.go:279-318 | the result is nil iff all twelve registrations succeed; otherwise its entries are exactly those of the failing stages in registration order |
| Plugin.ActiveStages | entry.go:283-316 | under the host assumption stated under Left out, a stage's hook stays installed iff its registration returned nil |
| Plugin.InitializePartitionsStages | entry.go:279-318 | every failing stage appears in the returned error, and (under the same host assumption) active hooks plus reported failures number twelve |
| Plugin.BeforeHook | entry.go:16-38 | the `before` hook of a kind starts a span named by that kind's configured op name, and does nothing without a context |
| Plugin.AfterHook | entry.go:40-42 | the shared `after` hook is skipped exactly when there is no context |
| Plugin.RegistrationOf | entry.go:283-316 | each stage is registered in its own kind's chain, at the built-in step `gorm:<kind>`, under its own stage name, with that kind's `before` handler or the shared `after` handler |
| Plugin.RegisteredHandlerMatchesStage | entry.go:16-42 | the handler registered at a before stage of a kind starts a span named by that kind's configured op name; the handler at every after stage runs the shared `after` hook |
| Plugin.SpanNamedAfterKind | entry.go:16-38 | for every plugin built by `New`, a kind's spans are named after the kind |
| SpanHooks.InjectBefore | entry.go:88-107 | with no handle, statement or context nothing changes and no span starts; otherwise the store gains exactly `start_time` (now) and `span` (the new span), every other key keeps its value, and the span is named as asked |
| SpanHooks.ExtractAfter | entry.go:109-136 | it is skipped iff there is no context; the start time is the stored time, or zero when absent or of another type; a span is ended, with the SQL text attached, iff a span-typed value is stored under `span` |
| SpanHooks.BeforeThenAfter | entry.go:88-136 | an `after` following a `before` on the same call ends exactly the span `before` started, using the time `before` recorded; without a context both do nothing |
| SpanHooks.AfterWithoutBefore | entry.go:119-133 | an `after` with nothing stored does not fail: it uses the zero time and ends no span |
| Registry.Install | entry.go:254-259 | the installed plugin carries the default options, the connection is kept, and (under the same host assumption) exactly the stages whose registration returned nil are active; the error is discarded |
| Registry.Get | entry.go:244-268 | a hit returns the cached handle without opening and leaves the map unchanged; a successful miss adds exactly that name bound to the new handle and keeps every other entry; a failed miss returns the open error and leaves the map unchanged |
| Registry.GetAfterSuccessHits | entry.go:244-250 | once a name is cached, a second `Get` returns the same handle without opening |
| Registry.GetNeverEvicts | entry.go:244-265 | a `Get` never removes or replaces a cached entry |
| Registry.GetReportsInsertion | entry.go:244-265 | a call reports an open with no error exactly when the name was missing and the open succeeded; then the name is the only key added and every other entry is kept, and otherwise the registry is unchanged |
| Registry.GetAsWritten | entry.go:253-267 | as written, a hit and a successful miss behave as in the corrected `Get` |
| Registry.GetAsWrittenPanicsOnFailedOpen | entry.go:253-267 | as written, a miss whose open fails panics, where the corrected `Get` returns the open error |
| Registry.FailedOpenCounterexample | entry.go:267 | on an empty registry and a refused connection, the code as written panics |
| Registry.Run | entry.go:244-265 | over any sequence of calls, each name is initialized at most once and never when already cached, no entry is lost, and the cached names are the initial ones plus the initialized ones |

## Left out

- Concurrency in `Get`: the single-flight group, the read/write lock, the follower's unset error and the ignored error from `Do` (entry.go:235-237, 253). Each `Get` is one atomic step. `Run` gives the sequential analogue of "initialized once".
- OpenTelemetry calls: these are foreign. A span is an opaque token. The model records the name and database name it starts with, and the SQL text attached when the `after` hook ends it (entry.go:131-132). The tracer lookup, the `db.system` attribute (entry.go:98, 101), span status and `defaultErrorTagHook` (entry.go:140-143) are not modelled.
- The driver and the host: `gorm.Open`/`mysql.Open`, the plugin bookkeeping in `db.Use`, and what `Callback().…Register` does inside the host. Their outcomes are inputs; the registration arguments (chain, insertion point, name, handler) are modelled by `RegistrationOf`. The data source string is represented only by the open outcome it leads to, and `Get`'s context parameter is unused by the code.
- Plugin.ActiveStages: entry.go does not track which hooks the host keeps. The model assumes the host keeps a hook exactly when its `Register` call returned nil, and keeps none for a failed call. `Registry.Install` and `Plugin.InitializePartitionsStages` rest on the same assumption.
- Plugin.New: a nil option function, which `New` calls and panics on (entry.go:324-326), is not representable; options are the three exported constructors.
- `Dialector.Explain`: its output is the `sql` parameter.
- Debug logging and `time.Now`/`time.Since` (entry.go:104, 135): this is I/O and wall-clock time. The current time is a parameter.
- SpanHooks.ExtractAfter: returns the start time the logged duration is measured from, but not the log line or the elapsed duration, because both are I/O and clock reads.
- The `logResult`, `logSqlParameters`, `errorTagHook` and `tracer` options: they are stored only, since nothing in the file reads them. The `before` hook uses the global tracer.
- `ErrNotFound` and the `spanKey` constant: an alias of a foreign value and an unused constant.

## Findings

| source | as written | input that shows it | evidently intended | confidence | as-written member | corrected member |
|---|---|---|---|---|---|---|
| entry.go:253-267 | on a cache miss whose open fails, the single-flight function returns a nil interface, and `v.(*gorm.DB)` on it panics | empty registry, name `main`, open returns `connection refused` | return the open error and cache nothing | high (not executed) | Registry.GetAsWrittenPanicsOnFailedOpen | Registry.Get |

=== FILE: error_accumulator.dfy ===
/** The plugin's error accumulator: an ordered list of failure strings that becomes
    no error when empty and otherwise one error whose text joins the entries with `;`. */
module ErrorAccumulator {
  import opened Wrappers
  import opened Vocabulary

  /** An error reported by the host, reduced to its message. */
  datatype HostError = HostError(message: string)

  /** The accumulator; when non-empty it is itself the combined error. */
  datatype MyError = MyError(errs: seq<string>)

  const Separator: char := ';'

  /** The entry recorded for a failing stage: `stage=<stage name>:<message>`. */
  function Entry(stage: Stage, err: HostError): (r: string)
    ensures |r| == 6 + |StageName(stage)| + 1 + |err.message|
    ensures r[..6] == "stage="
    ensures r[6..6 + |StageName(stage)|] == StageName(stage)
    ensures r[6 + |StageName(stage)|] == ':'
    ensures r[|r| - |err.message|..] == err.message
  {
    "stage=" + StageName(stage) + ":" + err.message
  }

  /** Records a failure of `stage`; a nil error records nothing. */
  function Add(e: MyError, stage: Stage, err: Option<HostError>): (r: MyError)
    ensures err.None? ==> r == e
    ensures err.Some? ==> |r.errs| == |e.errs| + 1 && r.errs[..|e.errs|] == e.errs
    ensures err.Some? ==> r.errs[|e.errs|] == Entry(stage, err.value)
  {
    match err
    case None => e
    case Some(x) => MyError(e.errs + [Entry(stage, x)])
  }

  /** Nil when nothing was recorded, otherwise the accumulator itself as an error. */
  function ToError(e: MyError): (r: Option<MyError>)
    ensures r.None? <==> |e.errs| == 0
    ensures r.Some? ==> r.value.errs == e.errs
  {
    if |e.errs| == 0 then None else Some(e)
  }

  /** The text of the combined error: the entries joined by the separator. Splitting it at the
      separator recovers the entries whenever none of them contains the separator. */
  function ErrorText(e: MyError): (r: string)
    ensures |e.errs| == 0 ==> r == ""
    ensures |e.errs| >= 1 && (forall i :: 0 <= i < |e.errs| ==> NoSeparator(e.errs[i])) ==> Split(r) == e.errs
  {
    JoinSplitsBack(e.errs);
    Join(e.errs)
  }

  /** `SplitJoin` stated as an implication, so that it applies to any list of entries. */
  lemma JoinSplitsBack(parts: seq<string>)
    ensures |parts| >= 1 && (forall i :: 0 <= i < |parts| ==> NoSeparator(parts[i])) ==> Split(Join(parts)) == parts
  {
    if |parts| >= 1 && (forall i :: 0 <= i < |parts| ==> NoSeparator(parts[i])) {
      SplitJoin(parts);
    }
  }

  /** Joins strings with the separator between consecutive elements (no trailing separator). */
  function Join(parts: seq<string>): string
  {
    if |parts| == 0 then ""
    else if |parts| == 1 then parts[0]
    else parts[0] + [Separator] + Join(parts[1..])
  }

  /** Splits a string at every separator; the left inverse of Join on separator-free parts. */
  function Split(s: string): (r: seq<string>)
    ensures |r| >= 1
  {
    if |s| == 0 then [""]
    else
      var rest := Split(s[1..]);
      if s[0] == Separator then [""] + rest
      else [[s[0]] + rest[0]] + rest[1..]
  }

  predicate NoSeparator(s: string)
  {
    forall i :: 0 <= i < |s| ==> s[i] != Separator
  }

  /** Splitting a separator-free prefix glues it onto the first piece of the rest. */
  lemma {:induction false} SplitPrefix(a: string, t: string)
    requires NoSeparator(a)
    ensures Split(a + t) == [a + Split(t)[0]] + Split(t)[1..]
  {
    if |a| == 0 {
      assert a + t == t;
      assert a + Split(t)[0] == Split(t)[0];
      assert [Split(t)[0]] + Split(t)[1..] == Split(t);
    } else {
      assert (a + t)[1..] == a[1..] + t;
      SplitPrefix(a[1..], t);
      assert [a[0]] + (a[1..] + Split(t)[0]) == a + Split(t)[0];
    }
  }

  /** Splitting the error text gives back the entries, provided no entry contains the separator. */
  lemma {:induction false} SplitJoin(parts: seq<string>)
    requires |parts| >= 1
    requires forall i :: 0 <= i < |parts| ==> NoSeparator(parts[i])
    ensures Split(Join(parts)) == parts
  {
    if |parts| == 1 {
      SplitPrefix(parts[0], "");
      assert parts[0] + "" == parts[0];
    } else {
      var t := [Separator] + Join(parts[1..]);
      assert Join(parts) == parts[0] + t;
      SplitPrefix(parts[0], t);
      SplitJoin(parts[1..]);
      assert t[1..] == Join(parts[1..]);
      assert Split(t) == [""] + parts[1..];
      assert parts[0] + "" == parts[0];
    }
  }

  /** Adding a failure to a non-empty accumulator appends the separator and the new entry to the text. */
  lemma {:induction false} JoinAppend(parts: seq<string>, x: string)
    requires |parts| >= 1
    ensures Join(parts + [x]) == Join(parts) + [Separator] + x
  {
    if |parts| == 1 {
      assert parts + [x] == [parts[0], x];
    } else {
      assert (parts + [x])[1..] == parts[1..] + [x];
      JoinAppend(parts[1..], x);
    }
  }

  /** The error text grows by exactly `;` and the new entry when a failure is added. */
  lemma AddExtendsText(e: MyError, stage: Stage, err: HostError)
    ensures |e.errs| == 0 ==> ErrorText(Add(e, stage, Some(err))) == Entry(stage, err)
    ensures |e.errs| >= 1 ==> ErrorText(Add(e, stage, Some(err))) == ErrorText(e) + [Separator] + Entry(stage, err)
  {
    if |e.errs| >= 1 {
      JoinAppend(e.errs, Entry(stage, err));
    }
  }

  lemma {:induction false} NoSeparatorConcat(a: string, b: string)
    requires NoSeparator(a) && NoSeparator(b)
    ensures NoSeparator(a + b)
  {
    forall i | 0 <= i < |a + b|
      ensures (a + b)[i] != Separator
    {
      if i >= |a| {
        assert (a + b)[i] == b[i - |a|];
      }
    }
  }

  /** No stage name contains the separator. */
  lemma StageNameNoSeparator(stage: Stage)
    ensures NoSeparator(StageName(stage))
  {
    StageNameScheme(stage);
    NoSeparatorConcat(PluginName + ":" + PhaseName(stage.phase) + "_", KindName(stage.kind));
  }

  /** An entry is separator-free exactly when its message is. */
  lemma EntryNoSeparator(stage: Stage, err: HostError)
    ensures NoSeparator(Entry(stage, err)) <==> NoSeparator(err.message)
  {
    var r := Entry(stage, err);
    if NoSeparator(err.message) {
      StageNameNoSeparator(stage);
      NoSeparatorConcat("stage=", StageName(stage));
      NoSeparatorConcat("stage=" + StageName(stage), ":");
      NoSeparatorConcat("stage=" + StageName(stage) + ":", err.message);
    } else {
      var i :| 0 <= i < |err.message| && err.message[i] == Separator;
      var o := |r| - |err.message|;
      assert r[o..][i] == err.message[i];
      assert r[o + i] == Separator;
    }
  }
}

=== FILE: plugin.dfy ===
/** The tracing plugin: construction from options, its reported name, the registration of
    its twelve hooks and the per-kind `before` hooks. */
module Plugin {
  import opened Wrappers
  import opened Vocabulary
  import opened ErrorAccumulator
  import opened PluginOptions
  import opened SpanHooks

  datatype OpentracingPlugin = OpentracingPlugin(opt: Options)

  /** The name the plugin reports to the host; every stage name is this name followed by `:`. */
  function Name(p: OpentracingPlugin): (r: string)
    ensures forall s: Stage :: |r| < |StageName(s)| && StageName(s)[..|r| + 1] == r + ":"
  {
    StageNamesLedByPluginName();
    PluginName
  }

  lemma StageNamesLedByPluginName()
    ensures forall s: Stage :: |PluginName| < |StageName(s)| && StageName(s)[..|PluginName| + 1] == PluginName + ":"
  {
    forall s: Stage
      ensures |PluginName| < |StageName(s)| && StageName(s)[..|PluginName| + 1] == PluginName + ":"
    {
      StageNameScheme(s);
    }
  }

  /** Builds a plugin: the defaults, then every option in order. `global` is the process-wide
      tracer provider. */
  function New(global: TracerProvider, opts: seq<ApplyOption>): (r: OpentracingPlugin)
    ensures r.opt.logResult == LastLogResult(opts, false)
    ensures r.opt.logSqlParameters == LastSqlParameters(opts, true)
    ensures r.opt.tracer == LastTracer(opts, global)
    ensures r.opt.errorTagHook.None?
    ensures forall k: Kind :: OpName(r.opt, k) == KindName(k)
  {
    ApplyAllLastWins(DefaultOption(global), opts);
    OpentracingPlugin(ApplyAll(DefaultOption(global), opts))
  }

  /** With no options the plugin carries exactly the defaults. */
  lemma NewWithoutOptions(global: TracerProvider)
    ensures New(global, []).opt == Options(false, global, true, None,
                                           "create", "update", "query", "delete", "row", "raw")
  {
  }

  /** A nil tracer option leaves the process-wide provider in place. */
  lemma NilTracerIgnored(global: TracerProvider, opts: seq<ApplyOption>)
    ensures New(global, opts + [WithTracer(None)]).opt == New(global, opts).opt
  {
    ApplyAllSnoc(DefaultOption(global), opts, WithTracer(None));
  }

  // ---- Initialize ----------------------------------------------------------------

  /** The accumulator after the first `n` registrations of the table, each fed its outcome
      (its contract is RegisterFirstReportsFailures). */
  function RegisterFirst(outcomes: seq<Option<HostError>>, n: nat): MyError
    requires |outcomes| == |AllStages| && n <= |outcomes|
  {
    if n == 0 then MyError([])
    else Add(RegisterFirst(outcomes, n - 1), AllStages[n - 1], outcomes[n - 1])
  }

  /** The increasing list of the indices below `n` whose outcome is a failure (`failed`) or a
      success (`!failed`). */
  function IndicesWhere(outcomes: seq<Option<HostError>>, n: nat, failed: bool): (r: seq<nat>)
    requires n <= |outcomes|
    ensures forall j :: 0 <= j < |r| ==> r[j] < n && outcomes[r[j]].Some? == failed
    ensures forall i :: 0 <= i < n && outcomes[i].Some? == failed ==> i in r
    ensures forall j, k :: 0 <= j < k < |r| ==> r[j] < r[k]
  {
    if n == 0 then []
    else
      var p := IndicesWhere(outcomes, n - 1, failed);
      if outcomes[n - 1].Some? == failed then
        var r := p + [n - 1];
        assert forall j :: 0 <= j < |p| ==> r[j] == p[j];
        r
      else p
  }

  /** The entries for the failing stages at the given indices, in the order given. */
  function EntriesAt(outcomes: seq<Option<HostError>>, idx: seq<nat>): seq<string>
    requires |outcomes| == |AllStages|
    requires forall j :: 0 <= j < |idx| ==> idx[j] < |outcomes| && outcomes[idx[j]].Some?
  {
    seq(|idx|, j requires 0 <= j < |idx| => Entry(AllStages[idx[j]], outcomes[idx[j]].value))
  }

  /** The stages at the given indices. */
  function StagesAt(idx: seq<nat>): seq<Stage>
    requires forall j :: 0 <= j < |idx| ==> idx[j] < |AllStages|
  {
    seq(|idx|, j requires 0 <= j < |idx| => AllStages[idx[j]])
  }

  lemma EntriesAtSnoc(outcomes: seq<Option<HostError>>, idx: seq<nat>, k: nat)
    requires |outcomes| == |AllStages|
    requires forall j :: 0 <= j < |idx| ==> idx[j] < |outcomes| && outcomes[idx[j]].Some?
    requires k < |outcomes| && outcomes[k].Some?
    ensures EntriesAt(outcomes, idx + [k]) == EntriesAt(outcomes, idx) + [Entry(AllStages[k], outcomes[k].value)]
  {
  }

  lemma FailedStepAppends(outcomes: seq<Option<HostError>>, n: nat)
    requires |outcomes| == |AllStages| && 0 < n <= |outcomes| && outcomes[n - 1].Some?
    ensures RegisterFirst(outcomes, n).errs
            == RegisterFirst(outcomes, n - 1).errs + [Entry(AllStages[n - 1], outcomes[n - 1].value)]
  {
  }

  /** Registration never stops early: after `n` attempts the accumulator holds one entry per
      failing attempt, in registration order. */
  lemma {:induction false} RegisterFirstReportsFailures(outcomes: seq<Option<HostError>>, n: nat)
    requires |outcomes| == |AllStages| && n <= |outcomes|
    ensures RegisterFirst(outcomes, n).errs == EntriesAt(outcomes, IndicesWhere(outcomes, n, true))
  {
    if n > 0 {
      RegisterFirstReportsFailures(outcomes, n - 1);
      var p := IndicesWhere(outcomes, n - 1, true);
      var prev := RegisterFirst(outcomes, n - 1);
      if outcomes[n - 1].Some? {
        assert IndicesWhere(outcomes, n, true) == p + [n - 1];
        FailedStepAppends(outcomes, n);
        EntriesAtSnoc(outcomes, p, n - 1);
      } else {
        assert IndicesWhere(outcomes, n, true) == p;
        assert RegisterFirst(outcomes, n) == prev;
      }
    }
  }

  /** Successes and failures partition the attempts. */
  lemma {:induction false} IndicesPartition(outcomes: seq<Option<HostError>>, n: nat)
    requires n <= |outcomes|
    ensures |IndicesWhere(outcomes, n, true)| + |IndicesWhere(outcomes, n, false)| == n
  {
    if n > 0 {
      IndicesPartition(outcomes, n - 1);
      var t, f := IndicesWhere(outcomes, n - 1, true), IndicesWhere(outcomes, n - 1, false);
      if outcomes[n - 1].Some? {
        assert IndicesWhere(outcomes, n, true) == t + [n - 1];
        assert IndicesWhere(outcomes, n, false) == f;
      } else {
        assert IndicesWhere(outcomes, n, true) == t;
        assert IndicesWhere(outcomes, n, false) == f + [n - 1];
      }
    }
  }

  /** Registers all twelve hooks; `outcomes[i]` is what the host returned for the registration
      `RegistrationOf(AllStages[i])`, the i-th of the table. The result is nil iff every registration succeeded, and
      otherwise lists exactly the failing stages in registration order. */
  function Initialize(outcomes: seq<Option<HostError>>): (r: Option<MyError>)
    requires |outcomes| == |AllStages|
    ensures r.None? <==> forall i :: 0 <= i < |outcomes| ==> outcomes[i].None?
    ensures r.Some? ==> r.value.errs == EntriesAt(outcomes, IndicesWhere(outcomes, |outcomes|, true))
  {
    RegisterFirstReportsFailures(outcomes, |outcomes|);
    var idx := IndicesWhere(outcomes, |outcomes|, true);
    assert |RegisterFirst(outcomes, |outcomes|).errs| == |idx|;
    assert |idx| > 0 ==> outcomes[idx[0]].Some?;
    ToError(RegisterFirst(outcomes, |outcomes|))
  }

  /** The hooks left installed on the host, assuming the host keeps a hook exactly when its
      registration returned nil (nothing in the plugin itself tracks this). */
  function ActiveStages(outcomes: seq<Option<HostError>>): (r: seq<Stage>)
    requires |outcomes| == |AllStages|
    ensures forall i :: 0 <= i < |outcomes| ==> (AllStages[i] in r <==> outcomes[i].None?)
  {
    var idx := IndicesWhere(outcomes, |outcomes|, false);
    var r := StagesAt(idx);
    assert forall i :: 0 <= i < |outcomes| && outcomes[i].None? ==> AllStages[i] in r by {
      forall i | 0 <= i < |outcomes| && outcomes[i].None?
        ensures AllStages[i] in r
      {
        var j :| 0 <= j < |idx| && idx[j] == i;
        assert r[j] == AllStages[i];
      }
    }
    assert forall i :: 0 <= i < |outcomes| && AllStages[i] in r ==> outcomes[i].None? by {
      forall i | 0 <= i < |outcomes| && AllStages[i] in r
        ensures outcomes[i].None?
      {
        var j :| 0 <= j < |r| && r[j] == AllStages[i];
        StageIndexOfTable(i);
        StageIndexOfTable(idx[j]);
      }
    }
    r
  }

  /** Partial instrumentation: every stage is either active or reported in the error, never
      both, and the counts add up to twelve. */
  lemma InitializePartitionsStages(outcomes: seq<Option<HostError>>)
    requires |outcomes| == |AllStages|
    ensures var r := Initialize(outcomes);
      |ActiveStages(outcomes)| + (if r.None? then 0 else |r.value.errs|) == |AllStages|
    ensures forall i :: 0 <= i < |outcomes| && outcomes[i].Some? ==>
      Initialize(outcomes).Some? && Entry(AllStages[i], outcomes[i].value) in Initialize(outcomes).value.errs
  {
    IndicesPartition(outcomes, |outcomes|);
    var r := Initialize(outcomes);
    var idx := IndicesWhere(outcomes, |outcomes|, true);
    assert |ActiveStages(outcomes)| == |IndicesWhere(outcomes, |outcomes|, false)|;
    assert r.Some? ==> |r.value.errs| == |idx|;
    assert |idx| > 0 ==> outcomes[idx[0]].Some?;
    forall i | 0 <= i < |outcomes| && outcomes[i].Some?
      ensures r.Some? && Entry(AllStages[i], outcomes[i].value) in r.value.errs
    {
      var j :| 0 <= j < |idx| && idx[j] == i;
      assert r.value.errs[j] == Entry(AllStages[i], outcomes[i].value);
    }
  }

  // ---- hooks ---------------------------------------------------------------------

  /** The `before` hook registered for kind `k`: starts a span named by the configured
      operation name of that kind. */
  function BeforeHook(p: OpentracingPlugin, k: Kind, db: Option<Db>, now: Time, span: SpanToken): (r: BeforeResult)
    ensures HasContext(db) ==> r.started.Some? && r.started.value.name == OpName(p.opt, k)
    ensures !HasContext(db) ==> r == BeforeResult(db, None)
  {
    InjectBefore(db, OpName(p.opt, k), now, span)
  }

  /** The `after` hook, shared by all six kinds. */
  function AfterHook(p: OpentracingPlugin, db: Option<Db>, sql: string): (r: AfterResult)
    ensures r.Skipped? <==> !HasContext(db)
  {
    ExtractAfter(db, sql)
  }

  /** No option changes operation names, so a plugin built by New always names a kind's spans
      after the kind itself. */
  lemma SpanNamedAfterKind(global: TracerProvider, opts: seq<ApplyOption>, k: Kind,
                           db: Option<Db>, now: Time, span: SpanToken)
    requires HasContext(db)
    ensures BeforeHook(New(global, opts), k, db, now, span).started == Some(StartedSpan(span, KindName(k), db.value.name))
  {
  }

  // ---- the registration table -------------------------------------------------------

  /** The handler a registration installs: the `before` handler of one kind, or the `after`
      handler shared by all kinds. */
  datatype Hook = BeforeOf(kind: Kind) | SharedAfter

  /** One hook registration: the chain it goes into, the built-in step it is placed before or
      after, the name it is registered under, and the handler. */
  datatype Registration = Registration(kind: Kind, phase: Phase, point: string, name: string, hook: Hook)

  /** The registration Initialize performs for each stage: into its own kind's chain, next to
      that kind's built-in step `gorm:<kind>`, under its own stage name, with the `before` handler
      of that same kind or the shared `after` handler. */
  function RegistrationOf(s: Stage): (r: Registration)
    ensures r.kind == s.kind && r.phase == s.phase && r.name == StageName(s)
    ensures r.point == "gorm:" + KindName(s.kind)
    ensures s.phase == Before ==> r.hook == BeforeOf(s.kind)
    ensures s.phase == After ==> r.hook == SharedAfter
  {
    match s
    case Stage(Before, Create) => Registration(Create, Before, "gorm:create", StageName(s), BeforeOf(Create))
    case Stage(After, Create) => Registration(Create, After, "gorm:create", StageName(s), SharedAfter)
    case Stage(Before, Update) => Registration(Update, Before, "gorm:update", StageName(s), BeforeOf(Update))
    case Stage(After, Update) => Registration(Update, After, "gorm:update", StageName(s), SharedAfter)
    case Stage(Before, Query) => Registration(Query, Before, "gorm:query", StageName(s), BeforeOf(Query))
    case Stage(After, Query) => Registration(Query, After, "gorm:query", StageName(s), SharedAfter)
    case Stage(Before, Delete) => Registration(Delete, Before, "gorm:delete", StageName(s), BeforeOf(Delete))
    case Stage(After, Delete) => Registration(Delete, After, "gorm:delete", StageName(s), SharedAfter)
    case Stage(Before, Row) => Registration(Row, Before, "gorm:row", StageName(s), BeforeOf(Row))
    case Stage(After, Row) => Registration(Row, After, "gorm:row", StageName(s), SharedAfter)
    case Stage(Before, Raw) => Registration(Raw, Before, "gorm:raw", StageName(s), BeforeOf(Raw))
    case Stage(After, Raw) => Registration(Raw, After, "gorm:raw", StageName(s), SharedAfter)
  }

  /** What running a handler on one call did. */
  datatype HookEffect = BeforeEffect(before: BeforeResult) | AfterEffect(after: AfterResult)

  /** Runs a handler of plugin `p` on a call; `now` and `span` feed a `before` handler and `sql`
      an `after` handler. */
  function RunHook(p: OpentracingPlugin, h: Hook, db: Option<Db>, now: Time, span: SpanToken, sql: string): HookEffect
  {
    match h
    case BeforeOf(k) => BeforeEffect(BeforeHook(p, k, db, now, span))
    case SharedAfter => AfterEffect(AfterHook(p, db, sql))
  }

  /** The handler registered at a before stage of kind `k` starts a span named by the op name
      configured for `k`; the handler at every after stage runs the shared `after` hook. */
  lemma RegisteredHandlerMatchesStage(p: OpentracingPlugin, s: Stage, db: Option<Db>,
                                      now: Time, span: SpanToken, sql: string)
    ensures var e := RunHook(p, RegistrationOf(s).hook, db, now, span, sql);
      && (s.phase == Before ==> e.BeforeEffect?)
      && (s.phase == Before && HasContext(db) ==>
            e.before.started == Some(StartedSpan(span, OpName(p.opt, s.kind), db.value.name)))
      && (s.phase == After ==> e == AfterEffect(AfterHook(p, db, sql)))
  {
  }
}

=== FILE: plugin_options.dfy ===
/** The plugin's configuration record and the option functions folded over its defaults. */
module PluginOptions {
  import opened Wrappers
  import opened Vocabulary

  /** An opaque tracer provider; only its identity matters here. */
  datatype TracerProvider = TracerProvider(id: nat)

  /** An opaque reference to an error-tagging function. */
  datatype ErrorTagHook = ErrorTagHook(id: nat)

  /** The configuration record. */
  datatype Options = Options(
    logResult: bool,
    tracer: TracerProvider,
    logSqlParameters: bool,
    errorTagHook: Option<ErrorTagHook>,
    createOpName: string,
    updateOpName: string,
    queryOpName: string,
    deleteOpName: string,
    rowOpName: string,
    rawOpName: string)

  /** The configured operation name of a kind. */
  function OpName(o: Options, k: Kind): string
  {
    match k
    case Create => o.createOpName
    case Update => o.updateOpName
    case Query => o.queryOpName
    case Delete => o.deleteOpName
    case Row => o.rowOpName
    case Raw => o.rawOpName
  }

  /** The defaults; `global` is the process-wide tracer provider at the time of the call.
      The error-tagging hook is left unset. */
  function DefaultOption(global: TracerProvider): (r: Options)
    ensures !r.logResult && r.logSqlParameters
    ensures r.tracer == global && r.errorTagHook.None?
    ensures forall k: Kind :: OpName(r, k) == KindName(k)
  {
    Options(false, global, true, None,
            KindName(Create), KindName(Update), KindName(Query),
            KindName(Delete), KindName(Row), KindName(Raw))
  }

  /** The three exported option functions. A `WithTracer(None)` stands for a nil provider. */
  datatype ApplyOption =
    | WithLogResult(logResult: bool)
    | WithTracer(tracer: Option<TracerProvider>)
    | WithSqlParameters(logSqlParameters: bool)

  /** Applies one option to a record. Each option changes its own field and nothing else;
      a nil tracer changes nothing. */
  function Apply(o: Options, opt: ApplyOption): (r: Options)
    ensures r.logResult != o.logResult ==> opt.WithLogResult?
    ensures r.logSqlParameters != o.logSqlParameters ==> opt.WithSqlParameters?
    ensures r.tracer != o.tracer ==> opt.WithTracer? && opt.tracer.Some?
    ensures r.errorTagHook == o.errorTagHook
    ensures forall k: Kind :: OpName(r, k) == OpName(o, k)
    ensures opt == WithTracer(None) ==> r == o
    ensures opt.WithTracer? && opt.tracer.Some? ==> r.tracer == opt.tracer.value
    ensures opt.WithLogResult? ==> r.logResult == opt.logResult
    ensures opt.WithSqlParameters? ==> r.logSqlParameters == opt.logSqlParameters
  {
    match opt
    case WithLogResult(b) => o.(logResult := b)
    case WithTracer(t) => if t.None? then o else o.(tracer := t.value)
    case WithSqlParameters(b) => o.(logSqlParameters := b)
  }

  /** Applies options left to right. No option reaches the error-tagging hook or the
      operation names, so those keep their starting values. */
  function ApplyAll(o: Options, opts: seq<ApplyOption>): (r: Options)
    ensures r.errorTagHook == o.errorTagHook
    ensures forall k: Kind :: OpName(r, k) == OpName(o, k)
    decreases |opts|
  {
    if |opts| == 0 then o else ApplyAll(Apply(o, opts[0]), opts[1..])
  }

  // Reference definitions: the value each field ends up with is the one set by the LAST
  // option that sets it, or the starting value when no option does.

  function LastLogResult(opts: seq<ApplyOption>, start: bool): bool
  {
    if |opts| == 0 then start
    else if opts[|opts| - 1].WithLogResult? then opts[|opts| - 1].logResult
    else LastLogResult(opts[..|opts| - 1], start)
  }

  function LastSqlParameters(opts: seq<ApplyOption>, start: bool): bool
  {
    if |opts| == 0 then start
    else if opts[|opts| - 1].WithSqlParameters? then opts[|opts| - 1].logSqlParameters
    else LastSqlParameters(opts[..|opts| - 1], start)
  }

  /** Nil tracers are skipped: the last NON-nil tracer wins. */
  function LastTracer(opts: seq<ApplyOption>, start: TracerProvider): TracerProvider
  {
    if |opts| == 0 then start
    else if opts[|opts| - 1].WithTracer? && opts[|opts| - 1].tracer.Some? then opts[|opts| - 1].tracer.value
    else LastTracer(opts[..|opts| - 1], start)
  }

  /** Applying the same option twice is the same as applying it once. */
  lemma ApplyIdempotent(o: Options, opt: ApplyOption)
    ensures Apply(Apply(o, opt), opt) == Apply(o, opt)
  {
  }

  /** Applying a sequence and then one more option equals applying the extended sequence. */
  lemma {:induction false} ApplyAllSnoc(o: Options, opts: seq<ApplyOption>, last: ApplyOption)
    ensures ApplyAll(o, opts + [last]) == Apply(ApplyAll(o, opts), last)
    decreases |opts|
  {
    if |opts| == 0 {
      assert [last][1..] == [];
    } else {
      assert (opts + [last])[1..] == opts[1..] + [last];
      ApplyAllSnoc(Apply(o, opts[0]), opts[1..], last);
    }
  }

  /** Applying a concatenation applies the first part, then the second. */
  lemma {:induction false} ApplyAllConcat(o: Options, a: seq<ApplyOption>, b: seq<ApplyOption>)
    ensures ApplyAll(o, a + b) == ApplyAll(ApplyAll(o, a), b)
    decreases |a|
  {
    if |a| == 0 {
      assert a + b == b;
    } else {
      assert (a + b)[1..] == a[1..] + b;
      ApplyAllConcat(Apply(o, a[0]), a[1..], b);
    }
  }

  /** Left-to-right application: every field ends with the value the last option for it chose. */
  lemma {:induction false} ApplyAllLastWins(o: Options, opts: seq<ApplyOption>)
    ensures ApplyAll(o, opts).logResult == LastLogResult(opts, o.logResult)
    ensures ApplyAll(o, opts).logSqlParameters == LastSqlParameters(opts, o.logSqlParameters)
    ensures ApplyAll(o, opts).tracer == LastTracer(opts, o.tracer)
    ensures ApplyAll(o, opts).errorTagHook == o.errorTagHook
    ensures forall k: Kind :: OpName(ApplyAll(o, opts), k) == OpName(o, k)
    decreases |opts|
  {
    if |opts| > 0 {
      var init, last := opts[..|opts| - 1], opts[|opts| - 1];
      assert opts == init + [last];
      ApplyAllSnoc(o, init, last);
      ApplyAllLastWins(o, init);
    }
  }
}

=== FILE: registry.dfy ===
/** The process-wide connection registry as a sequential state machine over a map from
    logical name to instrumented handle. Concurrency (single-flight and the lock) is not
    modelled; each `Get` is one atomic step. */
module Registry {
  import opened Wrappers
  import opened Vocabulary
  import opened ErrorAccumulator
  import opened PluginOptions
  import opened Plugin

  /** An opaque connection returned by the driver's open. */
  datatype Conn = Conn(id: nat)

  /** A cached handle: the connection, the plugin installed on it and the hooks that the host
      accepted when the plugin was installed. */
  datatype Handle = Handle(conn: Conn, plugin: OpentracingPlugin, active: seq<Stage>)

  type Dbs = map<string, Handle>

  /** The options `Get` installs the plugin with. */
  const RegistryOptions: seq<ApplyOption> := [WithLogResult(false), WithSqlParameters(true)]

  /** Installs the plugin on a fresh connection. The error Initialize reports is discarded,
      so the handle is produced whatever the registrations returned. */
  function Install(conn: Conn, registrations: seq<Option<HostError>>, global: TracerProvider): (h: Handle)
    requires |registrations| == |AllStages|
    ensures h.conn == conn
    ensures h.plugin.opt == DefaultOption(global)
    ensures forall i :: 0 <= i < |registrations| ==> (AllStages[i] in h.active <==> registrations[i].None?)
  {
    assert RegistryOptions == [] + [WithLogResult(false)] + [WithSqlParameters(true)];
    Handle(conn, New(global, RegistryOptions), ActiveStages(registrations))
  }

  /** What one `Get` returns and the registry after it; `didOpen` tells whether open was called. */
  datatype GetResult = GetResult(dbs: Dbs, handle: Option<Handle>, err: Option<HostError>, didOpen: bool)

  /** One `Get(name)`. `open` is what opening the connection would return, `registrations`
      what the host would return for the plugin's twelve hook registrations, `global` the
      process-wide tracer provider. A failed open yields the error and caches nothing. */
  function Get(dbs: Dbs, name: string, open: Result<Conn, HostError>,
               registrations: seq<Option<HostError>>, global: TracerProvider): (r: GetResult)
    requires |registrations| == |AllStages|
    ensures name in dbs ==> r == GetResult(dbs, Some(dbs[name]), None, false)
    ensures name !in dbs ==> r.didOpen
    ensures name !in dbs && open.Success? ==> (
              && r.handle.Some? && r.err.None?
              && r.handle.value.conn == open.value
              && r.handle.value.plugin.opt == DefaultOption(global)
              && r.dbs.Keys == dbs.Keys + {name}
              && r.dbs[name] == r.handle.value
              && forall k :: k in dbs ==> r.dbs[k] == dbs[k])
    ensures name !in dbs && open.Failure? ==> r == GetResult(dbs, None, Some(open.error), true)
  {
    if name in dbs then GetResult(dbs, Some(dbs[name]), None, false)
    else
      match open
      case Failure(e) => GetResult(dbs, None, Some(e), true)
      case Success(c) =>
        var h := Install(c, registrations, global);
        GetResult(dbs[name := h], Some(h), None, true)
  }

  /** Once a name is cached, asking again returns the same handle without opening. */
  lemma GetAfterSuccessHits(dbs: Dbs, name: string, open: Result<Conn, HostError>,
                            regs: seq<Option<HostError>>, global: TracerProvider,
                            open2: Result<Conn, HostError>, regs2: seq<Option<HostError>>)
    requires |regs| == |AllStages| && |regs2| == |AllStages|
    requires Get(dbs, name, open, regs, global).handle.Some?
    ensures var first := Get(dbs, name, open, regs, global);
      var second := Get(first.dbs, name, open2, regs2, global);
      second == GetResult(first.dbs, first.handle, None, false)
  {
  }

  /** Entries are never removed or replaced. */
  lemma GetNeverEvicts(dbs: Dbs, name: string, open: Result<Conn, HostError>,
                       regs: seq<Option<HostError>>, global: TracerProvider)
    requires |regs| == |AllStages|
    ensures var r := Get(dbs, name, open, regs, global);
      dbs.Keys <= r.dbs.Keys && forall k :: k in dbs ==> r.dbs[k] == dbs[k]
  {
  }

  // ---- the code as written ----------------------------------------------------------

  /** A call either returns or panics (leaving the registry as it stands). */
  datatype WrittenOutcome = Returns(result: GetResult) | Panics(dbs: Dbs)

  /** `Get` as written: on a miss the single-flight function yields a nil interface when open
      fails, and the unchecked type assertion on it panics. */
  function GetAsWritten(dbs: Dbs, name: string, open: Result<Conn, HostError>,
                        registrations: seq<Option<HostError>>, global: TracerProvider): (r: WrittenOutcome)
    requires |registrations| == |AllStages|
    ensures name in dbs ==> r == Returns(GetResult(dbs, Some(dbs[name]), None, false))
    ensures name !in dbs && open.Success? ==> r == Returns(Get(dbs, name, open, registrations, global))
  {
    if name in dbs then Returns(GetResult(dbs, Some(dbs[name]), None, false))
    else
      var v: Option<Handle> := match open
        case Failure(_) => None
        case Success(c) => Some(Install(c, registrations, global));
      var dbs' := if v.Some? then dbs[name := v.value] else dbs;
      if v.None? then Panics(dbs') else Returns(GetResult(dbs', v, None, true))
  }

  /** The divergence: a miss whose open fails panics instead of returning the open error. */
  lemma GetAsWrittenPanicsOnFailedOpen(dbs: Dbs, name: string, e: HostError,
                                       registrations: seq<Option<HostError>>, global: TracerProvider)
    requires |registrations| == |AllStages|
    requires name !in dbs
    ensures GetAsWritten(dbs, name, Failure(e), registrations, global) == Panics(dbs)
    ensures Get(dbs, name, Failure(e), registrations, global).err == Some(e)
  {
  }

  /** A concrete instance: an empty registry and a refused connection. */
  lemma FailedOpenCounterexample()
    ensures var regs := seq(|AllStages|, _ => None);
      && GetAsWritten(map[], "main", Failure(HostError("connection refused")), regs, TracerProvider(0)).Panics?
      && Get(map[], "main", Failure(HostError("connection refused")), regs, TracerProvider(0)).err
         == Some(HostError("connection refused"))
  {
    var regs: seq<Option<HostError>> := seq(|AllStages|, _ => None);
    GetAsWrittenPanicsOnFailedOpen(map[], "main", HostError("connection refused"), regs, TracerProvider(0));
  }

  // ---- sequences of calls ---------------------------------------------------------

  /** One caller's request and the host outcomes it would meet. */
  datatype Request = Request(name: string, open: Result<Conn, HostError>, registrations: seq<Option<HostError>>)

  predicate WellFormed(reqs: seq<Request>)
  {
    forall i :: 0 <= i < |reqs| ==> |reqs[i].registrations| == |AllStages|
  }

  /** The registry after a sequence of calls, and the names initialized along the way. */
  datatype RunResult = RunResult(dbs: Dbs, initialized: seq<string>)

  /** Runs the calls in order. Each name is initialized at most once, never if it was cached
      already, entries are never lost, and the cached names are the initial ones plus the
      initialized ones. */
  function Run(dbs: Dbs, reqs: seq<Request>, global: TracerProvider): (r: RunResult)
    requires WellFormed(reqs)
    ensures forall i, j :: 0 <= i < j < |r.initialized| ==> r.initialized[i] != r.initialized[j]
    ensures forall i :: 0 <= i < |r.initialized| ==> r.initialized[i] !in dbs
    ensures r.dbs.Keys == dbs.Keys + (set x | x in r.initialized)
    ensures forall k :: k in dbs ==> r.dbs[k] == dbs[k]
  {
    if |reqs| == 0 then RunResult(dbs, [])
    else
      var prev := Run(dbs, reqs[..|reqs| - 1], global);
      var q := reqs[|reqs| - 1];
      var g := Get(prev.dbs, q.name, q.open, q.registrations, global);
      GetReportsInsertion(prev.dbs, q.name, q.open, q.registrations, global);
      if g.didOpen && g.err.None?
      then
        InsertionKeepsRun(dbs, prev, g.dbs, q.name);
        RunResult(g.dbs, prev.initialized + [q.name])
      else RunResult(g.dbs, prev.initialized)
  }

  /** What `Run` promises about its result `r`, started from `dbs`. */
  predicate RunInvariant(dbs: Dbs, r: RunResult)
  {
    && (forall i, j :: 0 <= i < j < |r.initialized| ==> r.initialized[i] != r.initialized[j])
    && (forall i :: 0 <= i < |r.initialized| ==> r.initialized[i] !in dbs)
    && r.dbs.Keys == dbs.Keys + (set x | x in r.initialized)
    && (forall k :: k in dbs ==> r.dbs[k] == dbs[k])
  }

  /** Inserting a name not yet cached, and recording it as initialized, keeps `RunInvariant`. */
  lemma InsertionKeepsRun(dbs: Dbs, prev: RunResult, next: Dbs, name: string)
    requires RunInvariant(dbs, prev)
    requires name !in prev.dbs
    requires next.Keys == prev.dbs.Keys + {name}
    requires forall k :: k in prev.dbs ==> next[k] == prev.dbs[k]
    ensures RunInvariant(dbs, RunResult(next, prev.initialized + [name]))
  {
    InitializedNameSnoc(prev.initialized, name);
    assert forall i :: 0 <= i < |prev.initialized| ==> prev.initialized[i] in prev.dbs;
  }

  /** A call reports an open that succeeded exactly when it inserted a new name; every other
      call leaves the registry as it was. */
  lemma GetReportsInsertion(dbs: Dbs, name: string, open: Result<Conn, HostError>,
                            regs: seq<Option<HostError>>, global: TracerProvider)
    requires |regs| == |AllStages|
    ensures var g := Get(dbs, name, open, regs, global);
      && (g.didOpen && g.err.None? <==> name !in dbs && open.Success?)
      && (g.didOpen && g.err.None? ==> g.dbs.Keys == dbs.Keys + {name} && forall k :: k in dbs ==> g.dbs[k] == dbs[k])
      && (!(g.didOpen && g.err.None?) ==> g.dbs == dbs)
  {
  }

  /** Appending a name to the initialized list adds just that name to its set. */
  lemma InitializedNameSnoc(xs: seq<string>, x: string)
    ensures (set y | y in xs + [x]) == (set y | y in xs) + {x}
    ensures forall i :: 0 <= i < |xs| ==> (xs + [x])[i] == xs[i]
  {
  }
}

=== FILE: span_hooks.dfy ===
/** The before/after hook pair and its effect on the per-call instance store.
    Span creation, attributes and logging are foreign; a span is an opaque token here. */
module SpanHooks {
  import opened Wrappers

  /** A wall-clock instant in nanoseconds; `ZeroTime` is the zero value of Go's time type. */
  type Time = int
  const ZeroTime: Time := 0

  /** An opaque span handle produced by the tracer. */
  datatype SpanToken = SpanToken(id: nat)

  /** Values the untyped per-call store may hold under a key. `OtherValue` is anything put
      there by other code, of a type the hooks do not recognise. */
  datatype Value = TimeValue(t: Time) | SpanValue(span: SpanToken) | OtherValue(tag: nat)

  /** The per-call instance store of one statement. */
  type Store = map<string, Value>

  const StartTimeKey: string := "start_time"
  const SpanInstanceKey: string := "span"

  /** An opaque operation context. */
  datatype Context = Context(id: nat)

  /** The statement of one operation: its (possibly nil) context and its instance store. */
  datatype Statement = Statement(context: Option<Context>, store: Store)

  /** A database handle as seen by a hook: its name and its (possibly nil) statement. */
  datatype Db = Db(name: string, statement: Option<Statement>)

  /** Hooks act only on a non-nil handle with a non-nil statement that carries a context. */
  predicate HasContext(db: Option<Db>)
  {
    db.Some? && db.value.statement.Some? && db.value.statement.value.context.Some?
  }

  function StoreOf(db: Option<Db>): Store
    requires HasContext(db)
  {
    db.value.statement.value.store
  }

  /** The span a `before` hook started: its token, its name and the database it is tagged with. */
  datatype StartedSpan = StartedSpan(span: SpanToken, name: string, dbName: string)

  datatype BeforeResult = BeforeResult(db: Option<Db>, started: Option<StartedSpan>)

  /** The `before` hook: given a context, starts span `span` named `name` and records `now`
      and the span in the store. `now` and `span` come from the clock and the tracer. */
  function InjectBefore(db: Option<Db>, name: string, now: Time, span: SpanToken): (r: BeforeResult)
    ensures !HasContext(db) ==> r.db == db && r.started.None?
    ensures HasContext(db) ==> (
              && HasContext(r.db)
              && r.db.value.name == db.value.name
              && r.db.value.statement.value.context == db.value.statement.value.context
              && r.started == Some(StartedSpan(span, name, db.value.name)))
    ensures HasContext(db) ==> (
              && StoreOf(r.db).Keys == StoreOf(db).Keys + {StartTimeKey, SpanInstanceKey}
              && StoreOf(r.db)[StartTimeKey] == TimeValue(now)
              && StoreOf(r.db)[SpanInstanceKey] == SpanValue(span))
    ensures HasContext(db) ==> forall k :: k in StoreOf(db) && k != StartTimeKey && k != SpanInstanceKey ==>
      StoreOf(r.db)[k] == StoreOf(db)[k]
  {
    if !HasContext(db) then BeforeResult(db, None)
    else
      var st := db.value.statement.value;
      var store := st.store[StartTimeKey := TimeValue(now)][SpanInstanceKey := SpanValue(span)];
      BeforeResult(Some(db.value.(statement := Some(st.(store := store)))),
                   Some(StartedSpan(span, name, db.value.name)))
  }

  /** A span the `after` hook ended, with the SQL text it attached as an attribute. */
  datatype EndedSpan = EndedSpan(span: SpanToken, statement: string)

  /** `Skipped` when there is no context; otherwise the start time used for the logged duration
      and the span that was ended, if any. */
  datatype AfterResult = Skipped | Finished(startTime: Time, ended: Option<EndedSpan>)

  /** The `after` hook. `sql` is the dialect's interpolation of the statement's SQL and bound
      values. It only reads the store, so it returns no store. */
  function ExtractAfter(db: Option<Db>, sql: string): (r: AfterResult)
    ensures r.Skipped? <==> !HasContext(db)
    ensures r.Finished? && StartTimeKey !in StoreOf(db) ==> r.startTime == ZeroTime
    ensures r.Finished? && StartTimeKey in StoreOf(db) && StoreOf(db)[StartTimeKey].TimeValue? ==>
      r.startTime == StoreOf(db)[StartTimeKey].t
    ensures r.Finished? && StartTimeKey in StoreOf(db) && !StoreOf(db)[StartTimeKey].TimeValue? ==>
      r.startTime == ZeroTime
    ensures r.Finished? ==>
      (r.ended.Some? <==> SpanInstanceKey in StoreOf(db) && StoreOf(db)[SpanInstanceKey].SpanValue?)
    ensures r.Finished? && r.ended.Some? ==>
      r.ended.value == EndedSpan(StoreOf(db)[SpanInstanceKey].span, sql)
  {
    if !HasContext(db) then Skipped
    else
      var store := StoreOf(db);
      var startTime :=
        if StartTimeKey in store && store[StartTimeKey].TimeValue? then store[StartTimeKey].t else ZeroTime;
      var ended :=
        if SpanInstanceKey in store && store[SpanInstanceKey].SpanValue? then Some(EndedSpan(store[SpanInstanceKey].span, sql)) else None;
      Finished(startTime, ended)
  }

  /** A `before` followed by an `after` on the same call ends exactly the span `before` started,
      with the start time `before` recorded; without a context both are no-ops. */
  lemma BeforeThenAfter(db: Option<Db>, name: string, now: Time, span: SpanToken, sql: string)
    ensures var b := InjectBefore(db, name, now, span);
      var a := ExtractAfter(b.db, sql);
      if HasContext(db)
      then b.started.Some? && a == Finished(now, Some(EndedSpan(b.started.value.span, sql)))
      else b.started.None? && a == Skipped
  {
  }

  /** An `after` with no matching `before` (nothing stored) does not fail: it uses the zero
      time and ends no span. */
  lemma AfterWithoutBefore(db: Option<Db>, sql: string)
    requires HasContext(db)
    requires StartTimeKey !in StoreOf(db) && SpanInstanceKey !in StoreOf(db)
    ensures ExtractAfter(db, sql) == Finished(ZeroTime, None)
  {
  }
}

=== FILE: vocabulary.dfy ===
/** The fixed vocabulary of the tracing plugin: the six operation kinds, their default
    operation names, the twelve hook stage identifiers and the attribute key prefix. */
module Vocabulary {
  import opened Wrappers

  /** The host's six callback chains. */
  datatype Kind = Create | Update | Query | Delete | Row | Raw

  /** Whether a hook runs before or after the host's built-in step. */
  datatype Phase = Before | After

  /** One hook insertion point: a phase of one kind's chain. */
  datatype Stage = Stage(phase: Phase, kind: Kind)

  /** The name the plugin reports to the host. */
  const PluginName: string := "otel"

  /** The default operation name of each kind; the host's built-in step is `gorm:` followed by it. */
  function KindName(k: Kind): string
  {
    match k
    case Create => "create"
    case Update => "update"
    case Query => "query"
    case Delete => "delete"
    case Row => "row"
    case Raw => "raw"
  }

  function PhaseName(p: Phase): string
  {
    match p
    case Before => "before"
    case After => "after"
  }

  /** The registration name of each of the twelve stage constants. */
  function StageName(s: Stage): string
  {
    match s
    case Stage(Before, Create) => "otel:before_create"
    case Stage(After, Create) => "otel:after_create"
    case Stage(Before, Update) => "otel:before_update"
    case Stage(After, Update) => "otel:after_update"
    case Stage(Before, Query) => "otel:before_query"
    case Stage(After, Query) => "otel:after_query"
    case Stage(Before, Delete) => "otel:before_delete"
    case Stage(After, Delete) => "otel:after_delete"
    case Stage(Before, Row) => "otel:before_row"
    case Stage(After, Row) => "otel:after_row"
    case Stage(Before, Raw) => "otel:before_raw"
    case Stage(After, Raw) => "otel:after_raw"
  }

  /** The order in which the plugin registers its hooks: kind by kind, before then after. */
  const AllStages: seq<Stage> := [
    Stage(Before, Create), Stage(After, Create),
    Stage(Before, Update), Stage(After, Update),
    Stage(Before, Query), Stage(After, Query),
    Stage(Before, Delete), Stage(After, Delete),
    Stage(Before, Row), Stage(After, Row),
    Stage(Before, Raw), Stage(After, Raw)
  ]

  /** The position of a stage in the registration table. */
  function StageIndex(s: Stage): nat
  {
    var k := match s.kind
      case Create => 0 case Update => 1 case Query => 2 case Delete => 3 case Row => 4 case Raw => 5;
    2 * k + (if s.phase == Before then 0 else 1)
  }

  /** Each table entry sits at its own stage's position, so the table lists no stage twice. */
  lemma StageIndexOfTable(i: nat)
    requires i < |AllStages|
    ensures StageIndex(AllStages[i]) == i
  {
  }

  /** Every stage name follows the scheme `otel:<phase>_<kind>`, led by the plugin's own name. */
  lemma StageNameScheme(s: Stage)
    ensures StageName(s) == PluginName + ":" + PhaseName(s.phase) + "_" + KindName(s.kind)
  {
    if s.phase == Before {
      BeforeStageNameScheme(s.kind);
    } else {
      AfterStageNameScheme(s.kind);
    }
  }

  lemma BeforeStageNameScheme(k: Kind)
    ensures StageName(Stage(Before, k)) == "otel:before_" + KindName(k)
  {
  }

  lemma AfterStageNameScheme(k: Kind)
    ensures StageName(Stage(After, k)) == "otel:after_" + KindName(k)
  {
  }

  /** The registration table covers every stage exactly once. */
  lemma AllStagesComplete(s: Stage)
    ensures |AllStages| == 12
    ensures s in AllStages
    ensures forall i, j :: 0 <= i < j < |AllStages| ==> AllStages[i] != AllStages[j]
  {
    match s
    case Stage(Before, Create) => assert AllStages[0] == s;
    case Stage(After, Create) => assert AllStages[1] == s;
    case Stage(Before, Update) => assert AllStages[2] == s;
    case Stage(After, Update) => assert AllStages[3] == s;
    case Stage(Before, Query) => assert AllStages[4] == s;
    case Stage(After, Query) => assert AllStages[5] == s;
    case Stage(Before, Delete) => assert AllStages[6] == s;
    case Stage(After, Delete) => assert AllStages[7] == s;
    case Stage(Before, Row) => assert AllStages[8] == s;
    case Stage(After, Row) => assert AllStages[9] == s;
    case Stage(Before, Raw) => assert AllStages[10] == s;
    case Stage(After, Raw) => assert AllStages[11] == s;
  }

  /** Distinct stages are registered under distinct names. */
  lemma StageNameInjective(s: Stage, t: Stage)
    ensures StageName(s) == StageName(t) ==> s == t
  {
    if s != t {
      DistinctNamesDiffer(s, t);
    }
  }

  /** Helper: two different stages have names that differ at a position both names have. */
  lemma DistinctNamesDiffer(s: Stage, t: Stage)
    requires s != t
    ensures StageName(s) != StageName(t)
  {
    StageNameScheme(s);
    StageNameScheme(t);
    var a, b := StageName(s), StageName(t);
    if s.phase != t.phase {
      assert a[5] != b[5];
    } else {
      var o := 6 + |PhaseName(s.phase)|;
      var ka, kb := KindName(s.kind), KindName(t.kind);
      assert a[o..] == ka && b[o..] == kb;
      if |ka| == |kb| {
        assert ka[0] != kb[0] || ka[1] != kb[1];
        assert a[o] != b[o] || a[o + 1] != b[o + 1];
      }
    }
  }

  /** Looks a registration name up among the twelve stages; the inverse of StageName. */
  function ParseStage(name: string): (r: Option<Stage>)
    ensures r.Some? ==> StageName(r.value) == name
    ensures r.None? ==> forall i :: 0 <= i < |AllStages| ==> StageName(AllStages[i]) != name
  {
    FindStage(name, AllStages)
  }

  function FindStage(name: string, stages: seq<Stage>): (r: Option<Stage>)
    ensures r.Some? ==> r.value in stages && StageName(r.value) == name
    ensures r.None? ==> forall i :: 0 <= i < |stages| ==> StageName(stages[i]) != name
  {
    if |stages| == 0 then None
    else if StageName(stages[0]) == name then Some(stages[0])
    else FindStage(name, stages[1..])
  }

  /** Parsing a stage's own name gives that stage back. */
  lemma ParseStageName(s: Stage)
    ensures ParseStage(StageName(s)) == Some(s)
  {
    AllStagesComplete(s);
    var r := ParseStage(StageName(s));
    var i :| 0 <= i < |AllStages| && AllStages[i] == s;
    if r.Some? {
      StageNameInjective(r.value, s);
    }
  }

  /** Prefix of every attribute key the plugin defines. */
  const KeyPrefix: string := "gorm.otel"

  /** Qualifies an attribute key with the plugin's prefix and a dot. */
  function KeyWithPrefix(key: string): (r: string)
    ensures |r| == |KeyPrefix| + 1 + |key|
    ensures r[..|KeyPrefix|] == KeyPrefix && r[|KeyPrefix|] == '.'
    ensures r[|KeyPrefix| + 1..] == key
  {
    KeyPrefix + "." + key
  }

  /** Removes the plugin's key prefix; the inverse of KeyWithPrefix. */
  function StripKeyPrefix(s: string): Option<string>
  {
    if |s| > |KeyPrefix| && s[..|KeyPrefix|] == KeyPrefix && s[|KeyPrefix|] == '.'
    then Some(s[|KeyPrefix| + 1..])
    else None
  }

  /** StripKeyPrefix undoes KeyWithPrefix, and anything it accepts is a prefixed key. */
  lemma KeyPrefixRoundTrip(key: string, s: string)
    ensures StripKeyPrefix(KeyWithPrefix(key)) == Some(key)
    ensures StripKeyPrefix(s) == Some(key) ==> KeyWithPrefix(key) == s
  {
    if StripKeyPrefix(s) == Some(key) {
      assert s == s[..|KeyPrefix|] + [s[|KeyPrefix|]] + s[|KeyPrefix| + 1..];
    }
  }

  /** The attribute keys declared by the plugin. */
  const TableTagKey: string := KeyWithPrefix("table")
  const ResultLogKey: string := KeyWithPrefix("result")
  const SqlLogKey: string := KeyWithPrefix("sql")
  const RowsAffectedLogKey: string := KeyWithPrefix("rowsAffected")
  const ErrorTagKey: string := "error"
}

=== FILE: wrappers.dfy ===
/** Optional values and success/failure results shared by the other modules. */
module Wrappers {

  /** A value that may be absent: stands for Go's nil pointers, nil interfaces and nil errors. */
  datatype Option<+T> = None | Some(value: T)

  /** The outcome of a foreign call that returns either a value or an error. */
  datatype Result<+R, +E> = Success(value: R) | Failure(error: E)
}
